=== FILE: README.md ===
# Quiz post-processing of MQC-GenAI, modelled in Dafny

MQC-GenAI asks a language model for a multiple-choice quiz and receives
free text that should contain a JSON object of the form
`{"1": {"mcq": ..., "options": {"A": ..., ...}, "correct": ...}, ...}`.
Three functions in `src/GenAI/utils.py` turn that text into something the
page can display. This project models those three functions:

- `clean_quiz_data` (module `QuizClean`). It finds the first `{`, cuts
  the text at the first blank line and strips it. It then decodes it with
  `json.loads` and copies `mcq`, `options` and `correct` from every item
  into a list of records. Any problem becomes a `ValueError` whose message
  tells a decode error apart from every other kind.
- `get_table_data` (module `QuizTable`). It turns a list of records, or a
  JSON string, into display rows. The options are rendered as
  `"<key> -> <value>"` and joined with `" || "`. It gives `None` on any
  error.
- `validate_quiz_format` (module `QuizValidation`). It checks that every
  item has the three fields and that its options are a dict with string
  keys. As written it can never return `True` (see Findings). The model
  therefore holds both the function as written and the intended check.

The supporting modules are:

- `Results`: `Option`, `Result`, and `MapAll`, the fail-fast
  "build a list in a loop, abort on the first exception" pattern that all
  three functions share.
- `PyStrings`: the Python string operations used (`find`,
  `split(sep)[0]`, `strip`, `join`, `split`).
- `JsonValues`: decoded JSON values, with objects kept in key order,
  dictionary lookup, and Python's `str()` of a value.
- `QuizExamples`: worked scenarios.

`json.loads` is not modelled. It is a parameter `decode` of type
`string -> Result<Json, string>`, so every property holds for any
decoder. `json.dumps` followed by `json.loads` on a list of records (lines
67-75 of `src/GenAI/utils.py`) is taken to give the list back unchanged.

Each loop of the source is a method (`CleanQuizData`, `GetTableData`,
`ValidateItems`). Each is proved equal to a specification function
(`Clean`, `TableData`, `CheckItems`), and the lemmas are about those
functions.

Extraction cuts at the first blank line (`"\n\n"`) after the first `{`,
so prose on the line right after the object is kept and reaches
`json.loads` (`QuizExamples.ProseOnNextLineIsKept`). An answer such as
`Here you go:\n{...}\nHope this helps!` therefore fails to decode.

## Model

| member | source | states |
|---|---|---|
| Results.MapAll | src/GenAI/utils.py:47-56 | The loop over items succeeds iff every item succeeds. On success it yields one result per item, in order. Otherwise it yields the error of the first failing item, and every item before it succeeded. |
| PyStrings.Find | src/GenAI/utils.py:33 | `find` gives -1 iff the separator occurs nowhere. Otherwise it gives an occurrence, and none occurs earlier. |
| PyStrings.FindChar | src/GenAI/utils.py:33-35 | `find('{')` is -1 iff `'{'` is not in the text. Otherwise the character at the result is `'{'` and none comes before it. |
| PyStrings.SplitHead | src/GenAI/utils.py:41 | `split('\n\n')[0]` is a prefix of the text, and no separator starts anywhere inside it. It is the whole text iff the text holds no separator; otherwise the first separator follows it directly. |
| PyStrings.Strip | src/GenAI/utils.py:41 | `strip()` gives a piece of the text with only whitespace before and after it, which itself neither starts nor ends with whitespace. It is empty iff the text is all whitespace. When the text starts with a non-space, the piece is a prefix. |
| PyStrings.JoinNoSeparator | src/GenAI/utils.py:29-30 | `"".join(parts)` holds a character iff one of the parts holds it. |
| PyStrings.SplitJoin | src/GenAI/utils.py:82-84 | Splitting a `join` at the separator gives back the joined parts, provided no part creates an early separator. |
| JsonValues.Lookup | src/GenAI/utils.py:50-52 | `value[k]` finds nothing iff the key is absent. Otherwise it yields a value stored under `k` in the object. |
| QuizClean.CleanError.Message | src/GenAI/utils.py:58-61 | A decode failure's message starts with "Error decoding quiz JSON: ". Every other failure's message starts with "Error processing quiz data: ". |
| QuizClean.InputText | src/GenAI/utils.py:29-30 | A string is taken as it is. For a list of strings, the joined text holds a character iff one of the pieces does. |
| QuizClean.ExtractJsonText | src/GenAI/utils.py:29-41 | Nothing is extracted iff the text has no `{`. Otherwise the extracted text stands in the input at the first `{` and starts with it. No blank line starts inside it, and it ends in a non-space. After it come only whitespace and then the end of the input or a blank line. |
| QuizClean.CutUnique | src/GenAI/utils.py:38-41 | At most one text has the shape just described, so that shape fixes the extracted text completely. |
| QuizClean.ExtractRecovers | src/GenAI/utils.py:33-41 | Take prose without `{`, then an object that ends in a non-space, then whitespace, then the end or a blank line and anything. If no blank line starts inside the object or its trailing whitespace, exactly the object is extracted. |
| QuizClean.DecodeQuiz | src/GenAI/utils.py:26-44 | The "no JSON object" error occurs iff there is no `{`. Otherwise the result follows the decoder on the extracted text, in both directions. A decoder failure gives a decode error with its reason. A decoder success gives the decoded value. |
| QuizClean.SelectItem | src/GenAI/utils.py:49-53 | A record is built iff the item is a dict holding mcq, options and correct. |
| QuizClean.SelectItemCopies | src/GenAI/utils.py:49-53 | The record has exactly the keys mcq, options, correct, in that order. Each value is the item's own value for that key. |
| QuizClean.SelectItemErrors | src/GenAI/utils.py:48-53 | A non-dict item raises a TypeError. Otherwise the KeyError names the first of mcq, options, correct that is missing. These are the only errors. |
| QuizClean.SelectItemIdempotent | src/GenAI/utils.py:49-53 | Cleaning a record that was already cleaned gives the same record. |
| QuizClean.Clean | src/GenAI/utils.py:26-61 | The "no JSON object" error occurs iff the (joined) input has no `{`. An extraction or decode error is passed through unchanged. A decoded value that is not an object gives the "no .items()" error. A success means that the decoded value is an object and the result is the fail-fast map of its items. |
| QuizClean.DecodeFailureMessage | src/GenAI/utils.py:58-61 | A failed call's message starts with "Error decoding quiz JSON: " iff the decoder rejected the extracted text. |
| QuizClean.CleanRecords | src/GenAI/utils.py:47-56 | For a decoded object, cleaning succeeds iff every item has all three fields. It then gives one record per item, in key order, holding exactly the item's three values. Otherwise the error is that of the first incomplete item. |
| QuizClean.CleanQuizData | src/GenAI/utils.py:26-61 | The loop returns exactly what `Clean` specifies. The record list grows one item at a time, and the first failing item aborts the call. |
| QuizTable.Entries | src/GenAI/utils.py:83 | One rendered `"key -> value"` entry per option, in the options' order. |
| QuizTable.RowOf | src/GenAI/utils.py:80-86 | A row is built iff the record is a dict with mcq, correct, and options that are themselves a dict. |
| QuizTable.RowOfCopies | src/GenAI/utils.py:81-86 | The row's MCQ and Correct are the record's values. Its Choices is the `" || "` join of the rendered options. |
| QuizTable.Iterate | src/GenAI/utils.py:80 | `for item in value` yields a list's elements, a dict's keys as strings, and a string's characters. Any other value cannot be iterated. |
| QuizTable.TableItems | src/GenAI/utils.py:67-80 | A list is iterated as it is. A string is decoded and its value iterated, and a decode failure gives nothing. Any other argument gives nothing. |
| QuizTable.TableData | src/GenAI/utils.py:64-93 | Any input other than a list or a string gives None. For a list, the result is a table iff every record is renderable; the table then has one row per record, in order, and each row is that record's row. |
| QuizTable.TableDataOfString | src/GenAI/utils.py:69-88 | A JSON string that does not decode, or whose value cannot be iterated, gives None. Otherwise it gives the table of the list its value iterates to. A non-empty dict or string yields no records and gives None. |
| QuizTable.GetTableData | src/GenAI/utils.py:64-93 | The loop returns exactly what `TableData` specifies. Any failing record discards the rows built so far. |
| QuizTable.ChoicesRoundTrip | src/GenAI/utils.py:82-84 | For a non-empty options dict, reading the Choices string back gives every option's key and displayed text, in order. An empty dict renders as "", which reads back as one pair of empty strings. The round trip holds when no " -> " starts inside any key followed by " -> " (`Separable`), and likewise no " \|\| " starts inside any rendered entry followed by " \|\| ". A key such as "k ->" holds no " -> " and is still not separable. |
| QuizValidation.ItemProblem | src/GenAI/utils.py:108-111 | An item lacking any of mcq, options, correct has missing fields. An item with all three whose options are not a dict has bad options. Otherwise it passes. |
| QuizValidation.CheckItems | src/GenAI/utils.py:107-112 | The check accepts iff no item has a problem. A rejection names the key and the problem of the first item that has one. |
| QuizValidation.ValidateItems | src/GenAI/utils.py:107-112 | The loop returns exactly the verdict `CheckItems` specifies. |
| QuizValidation.ValidateQuizFormat | src/GenAI/utils.py:98-115 | The intended function returns True exactly on inputs that clean successfully and whose items all pass the check. |
| QuizValidation.RecordRenderable | src/GenAI/utils.py:80-86 | A cleaned record can be rendered iff its item's options are a dict. Its row then carries the item's mcq, correct and rendered options. |
| QuizValidation.RecordsRenderable | src/GenAI/utils.py:107-111 | On cleaned input, the check accepts iff every cleaned record can be rendered as a row. |
| QuizValidation.ValidIffPipelineSucceeds | src/GenAI/utils.py:98-115 | The intended check accepts iff `clean_quiz_data` succeeds and `get_table_data` on its records gives a table. |
| QuizValidation.PipelineRows | src/GenAI/utils.py:80-88 | For accepted input, the table has one row per item, in key order. Each row holds that item's question, correct answer and rendered options. |
| QuizValidation.Loads | src/GenAI/utils.py:105 | `json.loads` refuses a list with TypeError. A string is decoded, and a decoder failure becomes JSONDecodeError. |
| QuizValidation.ValidateAsWritten | src/GenAI/utils.py:98-115 | As written, a failed clean returns False. A successful clean raises an uncaught TypeError, derived from `Loads` on the returned list. |
| QuizValidation.AsWrittenNeverAccepts | src/GenAI/utils.py:101-105 | As written, the function never returns True. Every input that the intended check accepts makes it raise an uncaught TypeError. |
| JsonValues.PyStr | src/GenAI/utils.py:83 | The f-string shows a string option value as itself. Any other value is shown as its non-empty `repr`. |
| JsonValues.Digits | src/GenAI/utils.py:83 | The digits of a natural number are decimal digits, denote that number when read left to right, and start with `0` only for zero. |
| JsonValues.IntStr | src/GenAI/utils.py:83 | `str` of an integer starts with `-` iff the integer is negative. The rest is the decimal digits of its magnitude, with no leading zero. |
| JsonValues.Repr | src/GenAI/utils.py:83 | `repr` is never empty. It puts strings in single quotes, shows an integer as its `str`, and puts lists in brackets and dicts in braces. |
| JsonValues.ReprJoinsMembers | src/GenAI/utils.py:83 | The `repr` of a list is its elements' `repr`s joined with ", " between brackets. The `repr` of a dict joins `'key': repr(value)` for each field, in order, between braces. |
| JsonValues.LookupAt | src/GenAI/utils.py:50-52 | The first position holding a key is the value that key lookup yields. |
| QuizExamples.OneQuestionQuiz | src/GenAI/utils.py:26-115 | A one-line quiz after prose cleans to its one record and passes the intended check. It yields the row ("2+2?", "A -> 3 \|\| B -> 4", "B"), while the function as written raises TypeError. |
| QuizExamples.ProseOnNextLineIsKept | src/GenAI/utils.py:38-41 | Prose after the object on the next line (no blank line between) is kept in the text handed to the decoder. |
| QuizExamples.DanglingCorrectAccepted | src/GenAI/utils.py:107-111 | An item whose correct answer names none of its options passes the check and is rendered like any other. |

## Left out

- `read_file` (PDF and text upload) is file I/O over PyPDF2. It is not part of this model.
- Logging, `traceback.print_exc` and `traceback.print_exception` only print, so they are not modelled.
- `json.loads` of a string is a parameter: the decoder's grammar, its error texts and its duplicate-key handling are not modelled. Objects keep every key in order; lookup takes the first occurrence, which is the only one for a real dict.
- `json.dumps` followed by `json.loads` on a list of records is taken as the identity.
- JSON numbers are integers only; floats are not modelled.
- Python's `repr` of strings inside lists and dicts is modelled as single quotes with no escaping.
- QuizClean.CleanError.Message: only the two prefixes are stated. The text Python appends after them (exception messages for KeyError and TypeError) is not modelled exactly.
- QuizClean.QuizInput covers a string or a list of strings only. Any other argument, or a list holding non-strings, raises inside the `try` and becomes an "Error processing quiz data" ValueError. That path is not modelled.
- QuizTable.TableData: its own contract states the list and other-type cases. The string case is stated by `QuizTable.TableDataOfString`.
- QuizValidation.CheckItems: the string-key test on option keys is always true for decoded JSON objects. A non-dict item is reported as missing its fields. Python's `k in value` at line 108 behaves differently: it tests list membership for a list item and substring membership for a string item, and it raises a TypeError that the `except` does not catch for a number, bool or null item. The difference is harmless, because after a successful clean every item is a dict holding all three fields, so no such item reaches the loop.
- Checks the code does not make are not added: that the correct answer is among the option keys, the number of options, and non-empty question text. `QuizExamples.DanglingCorrectAccepted` shows the first of these is not enforced.
- `StreamlitAPP.py` and the quiz-generation chain call the language model and render the page. They are not part of this model.
- Applying the intended check a second time is covered only per item (`QuizClean.SelectItemIdempotent`), because the records `clean_quiz_data` returns are a list and are not fed back to it.

## Findings

| source | as written | input that shows it | evidently intended | confidence | as-written member | corrected member |
|---|---|---|---|---|---|---|
| src/GenAI/utils.py:101-105 | The list of records that `clean_quiz_data` returns is passed to `json.loads`. That raises TypeError, which `except (json.JSONDecodeError, ValueError)` does not catch, so the function never returns True. | `'{"1": {"mcq": "2+2?", "options": {"A": "3", "B": "4"}, "correct": "B"}}'` (`QuizExamples.OneQuestionQuiz`) | Check the items of the decoded quiz object and return True when all pass | not executed | QuizValidation.ValidateAsWritten | QuizValidation.ValidateQuizFormat |

=== FILE: json_values.dfy ===
/**
 * Decoded JSON values as Python's `json.loads` hands them back: objects
 * become dicts whose iteration order is the order of the keys in the text,
 * so an object is an ordered sequence of (key, value) pairs.
 */
module JsonValues {
  import opened Results
  import opened PyStrings

  datatype Json =
    | JNull
    | JBool(b: bool)
    | JNum(n: int)
    | JString(s: string)
    | JArray(elems: seq<Json>)
    | JObject(fields: seq<(string, Json)>)

  /** `json.loads`: the decoder is a parameter, returning the decoded value or the reason it failed. */
  type Decoder = string -> Result<Json, string>

  /** True when `k` is one of the keys of `fields` (Python's `k in d`). */
  predicate HasKey(fields: seq<(string, Json)>, k: string) {
    exists i :: 0 <= i < |fields| && fields[i].0 == k
  }

  /** Python's `d[k]`: the value stored under `k`, or None where Python raises KeyError. */
  function Lookup(fields: seq<(string, Json)>, k: string): (r: Option<Json>)
    ensures r.None? <==> !HasKey(fields, k)
    ensures r.Some? ==> exists i :: 0 <= i < |fields| && fields[i] == (k, r.value)
  {
    if fields == [] then None
    else if fields[0].0 == k then Some(fields[0].1)
    else
      var r := Lookup(fields[1..], k);
      assert r.Some? ==> exists i :: 0 <= i < |fields[1..]| && fields[1..][i] == (k, r.value);
      r
  }

  /** The key at position `i`, not found earlier, is the one Lookup finds. */
  lemma {:induction false} LookupAt(fields: seq<(string, Json)>, i: nat, k: string)
    requires i < |fields| && fields[i].0 == k
    requires forall j :: 0 <= j < i ==> fields[j].0 != k
    ensures Lookup(fields, k) == Some(fields[i].1)
  {
    if i > 0 {
      LookupAt(fields[1..], i - 1, k);
    }
  }

  /** The number a string of decimal digits denotes, read left to right. */
  function DigitsValue(r: string): int {
    if r == [] then 0 else 10 * DigitsValue(r[..|r| - 1]) + (r[|r| - 1] as int - '0' as int)
  }

  /** The decimal digits of a natural number, without leading zeros. */
  function Digits(n: nat): (r: string)
    ensures |r| > 0
    ensures forall i :: 0 <= i < |r| ==> '0' <= r[i] <= '9'
    ensures DigitsValue(r) == n
    ensures r[0] == '0' <==> n == 0
  {
    var d := ['0' + (n % 10) as char];
    if n < 10 then d
    else
      var high := Digits(n / 10);
      assert (high + d)[..|high|] == high;
      high + d
  }

  /**
   * Python's `str(i)` for an integer: a minus sign for a negative number,
   * then the decimal digits of its magnitude, with no leading zero.
   */
  function IntStr(i: int): (r: string)
    ensures |r| > 0 && (r[0] == '-' <==> i < 0)
    ensures var digits := if i < 0 then r[1..] else r;
              && |digits| > 0
              && (forall k :: 0 <= k < |digits| ==> '0' <= digits[k] <= '9')
              && DigitsValue(digits) == (if i < 0 then -i else i)
              && (digits[0] == '0' <==> i == 0)
  {
    if i < 0 then
      var digits := Digits(-i);
      assert ("-" + digits)[1..] == digits;
      "-" + digits
    else Digits(i)
  }

  /**
   * Python's `repr` of a decoded value, as used when a list or dict is
   * formatted: strings in single quotes, `None`, `True`, `False`.
   * `ReprJoinsMembers` states the text of a list or dict.
   */
  function Repr(v: Json): (r: string)
    ensures |r| > 0
    ensures v.JString? ==> r == "'" + v.s + "'"
    ensures v.JNum? ==> r == IntStr(v.n)
    ensures v.JArray? ==> r[0] == '[' && r[|r| - 1] == ']'
    ensures v.JObject? ==> r[0] == '{' && r[|r| - 1] == '}'
    decreases v, 1, 0
  {
    match v
    case JNull => "None"
    case JBool(b) => if b then "True" else "False"
    case JNum(n) => IntStr(n)
    case JString(s) => "'" + s + "'"
    case JArray(elems) => "[" + ReprItems(v, 0) + "]"
    case JObject(fields) => "{" + ReprItems(v, 0) + "}"
  }

  /** The comma-separated `repr`s of the members of a list or dict from index `from` on. */
  function ReprItems(container: Json, from: nat): string
    requires container.JArray? || container.JObject?
    decreases container, 0, Size(container) - from
  {
    if from >= Size(container) then ""
    else
      var item :=
        if container.JArray? then Repr(container.elems[from])
        else "'" + container.fields[from].0 + "': " + Repr(container.fields[from].1);
      if from + 1 == Size(container) then item else item + ", " + ReprItems(container, from + 1)
  }

  /**
   * The `repr` of a list is `"[" + ", ".join(map(repr, elems)) + "]"`, and
   * that of a dict joins `'key': repr(value)` for each field, in order,
   * between braces.
   */
  lemma ReprJoinsMembers(v: Json)
    ensures v.JArray? ==>
              Repr(v) == "[" + Join(", ", seq(|v.elems|, i requires 0 <= i < |v.elems| => Repr(v.elems[i]))) + "]"
    ensures v.JObject? ==>
              Repr(v) == "{" + Join(", ", seq(|v.fields|, i requires 0 <= i < |v.fields| =>
                                     "'" + v.fields[i].0 + "': " + Repr(v.fields[i].1))) + "}"
  {
    if v.JArray? || v.JObject? {
      var members :=
        if v.JArray? then seq(|v.elems|, i requires 0 <= i < |v.elems| => Repr(v.elems[i]))
        else seq(|v.fields|, i requires 0 <= i < |v.fields| => "'" + v.fields[i].0 + "': " + Repr(v.fields[i].1));
      ReprItemsJoin(v, members, 0);
      assert members[0..] == members;
    }
  }

  /** From index `from` on, the items written are the `", "`-join of the members' `repr`s. */
  lemma {:induction false} ReprItemsJoin(container: Json, members: seq<string>, from: nat)
    requires container.JArray? || container.JObject?
    requires |members| == Size(container) && from <= |members|
    requires container.JArray? ==> forall i :: 0 <= i < |members| ==> members[i] == Repr(container.elems[i])
    requires container.JObject? ==>
               forall i :: 0 <= i < |members| ==>
                 members[i] == "'" + container.fields[i].0 + "': " + Repr(container.fields[i].1)
    ensures ReprItems(container, from) == Join(", ", members[from..])
    decreases |members| - from
  {
    if from + 1 < |members| {
      ReprItemsJoin(container, members, from + 1);
      assert members[from..][1..] == members[from + 1..];
    }
  }

  /** The number of members of a list or dict. */
  function Size(container: Json): nat
    requires container.JArray? || container.JObject?
  {
    if container.JArray? then |container.elems| else |container.fields|
  }

  /** Python's `str(v)` (what an f-string shows): a string is shown as itself. */
  function PyStr(v: Json): (r: string)
    ensures v.JString? ==> r == v.s
    ensures !v.JString? ==> r == Repr(v) && |r| > 0
  {
    if v.JString? then v.s else Repr(v)
  }
}

=== FILE: pystrings.dfy ===
/**
 * The Python string operations the quiz pipeline relies on: `str.find`,
 * `str.split(sep)[0]`, `str.strip()`, `str.join`, and a splitter used to
 * read a rendered choices string back.
 */
module PyStrings {

  /** Python's `str.isspace()` for one character: the characters `str.strip()` removes. */
  predicate IsSpace(c: char) {
    || c == ' ' || c == '\t' || c == '\n' || c == '\r'
    || c == '\U{000B}' || c == '\U{000C}'
    || ('\U{001C}' <= c <= '\U{001F}')
    || c == '\U{0085}' || c == '\U{00A0}' || c == '\U{1680}'
    || ('\U{2000}' <= c <= '\U{200A}')
    || c == '\U{2028}' || c == '\U{2029}' || c == '\U{202F}' || c == '\U{205F}' || c == '\U{3000}'
  }

  /** `sep` occurs in `s` starting at index `i`. */
  predicate OccursAt(s: string, sep: string, i: int) {
    0 <= i && i + |sep| <= |s| && s[i..i + |sep|] == sep
  }

  /** The first index at or after `from` where `sep` occurs, or -1. */
  function FindFrom(s: string, sep: string, from: nat): (r: int)
    requires from <= |s|
    ensures r == -1 || (from <= r && OccursAt(s, sep, r))
    ensures forall j :: from <= j && (r == -1 || j < r) ==> !OccursAt(s, sep, j)
    decreases |s| - from
  {
    if from + |sep| > |s| then -1
    else if s[from..from + |sep|] == sep then from
    else FindFrom(s, sep, from + 1)
  }

  /** Python's `s.find(sep)`: the index of the first occurrence of `sep`, or -1. */
  function Find(s: string, sep: string): (r: int)
    ensures r == -1 <==> forall j :: !OccursAt(s, sep, j)
    ensures r != -1 ==> OccursAt(s, sep, r) && forall j :: 0 <= j < r ==> !OccursAt(s, sep, j)
  {
    FindFrom(s, sep, 0)
  }

  /** A one-character separator occurs exactly where that character stands. */
  lemma OccursAtChar(s: string, c: char, j: int)
    ensures OccursAt(s, [c], j) <==> 0 <= j < |s| && s[j] == c
  {
    if 0 <= j < |s| {
      assert s[j..j + 1] == [s[j]];
    }
  }

  /** Python's `s.find(c)` for one character, in terms of membership. */
  lemma FindChar(s: string, c: char)
    ensures Find(s, [c]) == -1 <==> c !in s
    ensures Find(s, [c]) != -1 ==> 0 <= Find(s, [c]) < |s| && s[Find(s, [c])] == c && c !in s[..Find(s, [c])]
  {
    var r := Find(s, [c]);
    if r == -1 {
      forall j | 0 <= j < |s| ensures s[j] != c {
        OccursAtChar(s, c, j);
      }
    } else {
      OccursAtChar(s, c, r);
      forall j | 0 <= j < r ensures s[j] != c {
        OccursAtChar(s, c, j);
      }
    }
  }

  /** An occurrence inside a prefix is an occurrence in the whole string. */
  lemma OccursInPrefix(s: string, n: nat, sep: string, j: int)
    requires n <= |s|
    requires OccursAt(s[..n], sep, j)
    ensures OccursAt(s, sep, j)
  {
    assert s[..n][j..j + |sep|] == s[j..j + |sep|];
  }

  /** An occurrence in a suffix is an occurrence in the whole string, shifted by where the suffix starts. */
  lemma OccursInSuffix(s: string, start: nat, sep: string, j: int)
    requires start <= |s| && 0 <= j
    ensures OccursAt(s[start..], sep, j) <==> OccursAt(s, sep, start + j)
  {
    if j + |sep| <= |s| - start {
      assert s[start..][j..j + |sep|] == s[start + j..start + j + |sep|];
    }
  }

  /** Python's `s.split(sep)[0]`: everything before the first occurrence of `sep`. */
  function SplitHead(s: string, sep: string): (r: string)
    requires |sep| > 0
    ensures |r| <= |s| && r == s[..|r|]
    ensures forall j :: !OccursAt(r, sep, j)
    ensures forall j :: 0 <= j < |r| ==> !OccursAt(s, sep, j)
    ensures r == s <==> forall j :: !OccursAt(s, sep, j)
    ensures r != s ==> OccursAt(s, sep, |r|)
  {
    var i := Find(s, sep);
    if i == -1 then s
    else
      assert forall j :: OccursAt(s[..i], sep, j) ==> OccursAt(s, sep, j) && j < i by {
        forall j | OccursAt(s[..i], sep, j) ensures OccursAt(s, sep, j) && j < i {
          OccursInPrefix(s, i, sep, j);
        }
      }
      s[..i]
  }

  /** Python's `s.lstrip()`. */
  function TrimLeft(s: string): (r: string)
    ensures |r| <= |s| && r == s[|s| - |r|..]
    ensures forall i :: 0 <= i < |s| - |r| ==> IsSpace(s[i])
    ensures |r| > 0 ==> !IsSpace(r[0])
    decreases |s|
  {
    if |s| > 0 && IsSpace(s[0]) then TrimLeft(s[1..]) else s
  }

  /** Python's `s.rstrip()`. */
  function TrimRight(s: string): (r: string)
    ensures |r| <= |s| && r == s[..|r|]
    ensures forall i :: |r| <= i < |s| ==> IsSpace(s[i])
    ensures |r| > 0 ==> !IsSpace(r[|r| - 1])
    decreases |s|
  {
    if |s| > 0 && IsSpace(s[|s| - 1]) then TrimRight(s[..|s| - 1]) else s
  }

  /**
   * Python's `s.strip()`: the part of `s` between its leading and its
   * trailing whitespace.
   */
  function Strip(s: string): (r: string)
    ensures |r| <= |s|
    ensures |r| > 0 ==> !IsSpace(r[0]) && !IsSpace(r[|r| - 1])
    ensures (forall i :: 0 <= i < |s| ==> IsSpace(s[i])) <==> r == []
    ensures |s| > 0 && !IsSpace(s[0]) ==>
              |r| > 0 && r == s[..|r|] && forall i :: |r| <= i < |s| ==> IsSpace(s[i])
    ensures exists i :: Surrounded(s, r, i)
  {
    StripShape(s);
    StripSurrounded(s);
    TrimRight(TrimLeft(s))
  }

  /** The bounds and ends of what the two trims leave. */
  lemma StripShape(s: string)
    ensures var r := TrimRight(TrimLeft(s));
              && (|r| > 0 ==> !IsSpace(r[0]))
              && ((forall i :: 0 <= i < |s| ==> IsSpace(s[i])) <==> r == [])
              && (|s| > 0 && !IsSpace(s[0]) ==>
                    |r| > 0 && r == s[..|r|] && forall i :: |r| <= i < |s| ==> IsSpace(s[i]))
  {
    var t := TrimLeft(s);
    var r := TrimRight(t);
    StripBlank(s, t, r);
    StripNonSpaceStart(s, t, r);
  }

  /** What the two trims leave stands in the input between whitespace. */
  lemma StripSurrounded(s: string)
    ensures exists i :: Surrounded(s, TrimRight(TrimLeft(s)), i)
  {
    var t := TrimLeft(s);
    SurroundedByTrim(s, t, TrimRight(t));
  }

  /** Both trims together empty exactly the all-whitespace strings. */
  lemma StripBlank(s: string, t: string, r: string)
    requires t == TrimLeft(s) && r == TrimRight(t)
    ensures |r| > 0 ==> !IsSpace(r[0])
    ensures (forall i :: 0 <= i < |s| ==> IsSpace(s[i])) <==> r == []
  {
    TrimLeftBlank(s);
    TrimRightBlank(t);
    if |r| > 0 {
      assert t[0] == r[0];
    }
  }

  /** A string starting with a non-space loses only trailing whitespace. */
  lemma StripNonSpaceStart(s: string, t: string, r: string)
    requires t == TrimLeft(s) && r == TrimRight(t)
    ensures |s| > 0 && !IsSpace(s[0]) ==>
              |r| > 0 && r == s[..|r|] && forall i :: |r| <= i < |s| ==> IsSpace(s[i])
  {
    TrimLeftKeepsNonSpaceStart(s);
    TrimRightBlank(t);
  }

  /** `r` stands at index `i` of `s` with only whitespace before and after it. */
  predicate Surrounded(s: string, r: string, i: int) {
    && 0 <= i && i + |r| <= |s| && s[i..i + |r|] == r
    && (forall k :: 0 <= k < i ==> IsSpace(s[k]))
    && (forall k :: i + |r| <= k < |s| ==> IsSpace(s[k]))
  }

  /** The surrounding whitespace of `r` is what the two trims removed. */
  lemma SurroundedByTrim(s: string, t: string, r: string)
    requires |t| <= |s| && t == s[|s| - |t|..] && forall k :: 0 <= k < |s| - |t| ==> IsSpace(s[k])
    requires |r| <= |t| && r == t[..|r|] && forall k :: |r| <= k < |t| ==> IsSpace(t[k])
    ensures Surrounded(s, r, |s| - |t|)
  {
    var i := |s| - |t|;
    assert s[i..i + |r|] == t[..|r|];
    forall k | i + |r| <= k < |s| ensures IsSpace(s[k]) {
      assert s[k] == t[k - i];
    }
  }

  /** Nothing is trimmed from the left of a string that starts with a non-space. */
  lemma TrimLeftKeepsNonSpaceStart(s: string)
    ensures |s| > 0 && !IsSpace(s[0]) ==> TrimLeft(s) == s
  {
  }

  /** Left-trimming empties exactly the all-whitespace strings. */
  lemma TrimLeftBlank(s: string)
    ensures (forall i :: 0 <= i < |s| ==> IsSpace(s[i])) <==> TrimLeft(s) == []
  {
    var t := TrimLeft(s);
    if |t| > 0 {
      assert s[|s| - |t|] == t[0];
    }
  }

  /** Right-trimming empties exactly the all-whitespace strings. */
  lemma TrimRightBlank(s: string)
    ensures (forall i :: 0 <= i < |s| ==> IsSpace(s[i])) <==> TrimRight(s) == []
  {
    var t := TrimRight(s);
    if |t| > 0 {
      assert s[|t| - 1] == t[|t| - 1];
    }
  }

  /** Python's `sep.join(parts)`. */
  function Join(sep: string, parts: seq<string>): string
  {
    if |parts| == 0 then ""
    else if |parts| == 1 then parts[0]
    else parts[0] + sep + Join(sep, parts[1..])
  }

  /** `"".join(parts)` holds a character exactly when one of the parts does. */
  lemma {:induction false} JoinNoSeparator(parts: seq<string>, c: char)
    ensures c in Join("", parts) <==> exists i :: 0 <= i < |parts| && c in parts[i]
    decreases |parts|
  {
    if |parts| > 1 {
      JoinNoSeparator(parts[1..], c);
      assert forall i :: 1 <= i < |parts| ==> parts[i] == parts[1..][i - 1];
      assert Join("", parts) == parts[0] + Join("", parts[1..]);
    }
  }

  /** Python's `s.split(sep)`: the pieces between successive occurrences of `sep`. */
  function Split(s: string, sep: string): (r: seq<string>)
    requires |sep| > 0
    ensures |r| > 0
    decreases |s|
  {
    var i := Find(s, sep);
    if i == -1 then [s] else [s[..i]] + Split(s[i + |sep|..], sep)
  }

  /** Python's `s.partition(sep)` without the separator: the text before and after its first occurrence. */
  function Partition(s: string, sep: string): (string, string)
  {
    var i := Find(s, sep);
    if i == -1 then (s, "") else (s[..i], s[i + |sep|..])
  }

  /**
   * `p` can be followed by `sep` without creating an earlier occurrence of
   * `sep`: no occurrence starts inside `p` in `p + sep`.
   */
  predicate Separable(p: string, sep: string) {
    forall j :: 0 <= j < |p| ==> !OccursAt(p + sep, sep, j)
  }

  /** After a separable piece, the first occurrence of `sep` is the one that follows it. */
  lemma FindAfterSeparable(p: string, sep: string, rest: string)
    requires |sep| > 0 && Separable(p, sep)
    ensures Find(p + sep + rest, sep) == |p|
  {
    var s := p + sep + rest;
    assert s[|p|..|p| + |sep|] == sep;
    assert OccursAt(s, sep, |p|);
    forall j | 0 <= j < |p| ensures !OccursAt(s, sep, j) {
      assert s[..|p| + |sep|] == p + sep;
      if OccursAt(s, sep, j) {
        assert (p + sep)[j..j + |sep|] == s[j..j + |sep|];
        assert OccursAt(p + sep, sep, j);
      }
    }
  }

  /** A separable piece holds no occurrence of `sep`. */
  lemma FindInSeparable(p: string, sep: string)
    requires |sep| > 0 && Separable(p, sep)
    ensures Find(p, sep) == -1
  {
    forall j | OccursAt(p, sep, j) ensures false {
      assert (p + sep)[j..j + |sep|] == p[j..j + |sep|];
      assert OccursAt(p + sep, sep, j);
    }
  }

  /** Splitting a join recovers the parts when every part is separable. */
  lemma {:induction false} SplitJoin(parts: seq<string>, sep: string)
    requires |parts| > 0 && |sep| > 0
    requires forall i :: 0 <= i < |parts| ==> Separable(parts[i], sep)
    ensures Split(Join(sep, parts), sep) == parts
    decreases |parts|
  {
    if |parts| == 1 {
      FindInSeparable(parts[0], sep);
    } else {
      var rest := Join(sep, parts[1..]);
      var s := parts[0] + sep + rest;
      FindAfterSeparable(parts[0], sep, rest);
      assert s[..|parts[0]|] == parts[0];
      assert s[|parts[0]| + |sep|..] == rest;
      SplitJoin(parts[1..], sep);
      assert [parts[0]] + parts[1..] == parts;
    }
  }

  /** Partitioning `p + sep + rest` at a separable `p` gives back `p` and `rest`. */
  lemma PartitionSeparable(p: string, sep: string, rest: string)
    requires |sep| > 0 && Separable(p, sep)
    ensures Partition(p + sep + rest, sep) == (p, rest)
  {
    var s := p + sep + rest;
    FindAfterSeparable(p, sep, rest);
    assert s[..|p|] == p;
    assert s[|p| + |sep|..] == rest;
  }
}

=== FILE: quiz_clean.dfy ===
/**
 * `clean_quiz_data` (src/GenAI/utils.py): find the JSON object in the
 * model's free-text answer, decode it, and copy the three quiz fields of
 * every item into a fresh record, failing as a whole on the first problem.
 */
module QuizClean {
  import opened Results
  import opened JsonValues
  import opened PyStrings

  /** What the caller passes: a string, or a list of strings that is joined first. */
  datatype QuizInput = Text(s: string) | Pieces(parts: seq<string>)

  /**
   * Why `clean_quiz_data` raised. Python raises ValueError for all of them;
   * a decode failure carries the "Error decoding quiz JSON" message, every
   * other case the "Error processing quiz data" message.
   */
  datatype CleanError =
    | NoJsonObject             // no '{' in the text
    | DecodeError(reason: string)  // json.loads raised JSONDecodeError
    | TopLevelNotObject        // the decoded value has no .items()
    | ItemNotObject            // an item cannot be indexed by a key
    | MissingField(field: string)  // KeyError on one of the three fields
  {
    /** The message of the ValueError that `clean_quiz_data` raises. */
    function Message(): (m: string)
      ensures DecodeError? ==> StartsWith(m, DecodePrefix)
      ensures !DecodeError? ==> StartsWith(m, ProcessPrefix)
    {
      match this
      case NoJsonObject => ProcessPrefix + "JSON object not found in the string."
      case DecodeError(reason) => DecodePrefix + reason
      case TopLevelNotObject => ProcessPrefix + "object has no attribute 'items'"
      case ItemNotObject => ProcessPrefix + "object is not subscriptable by a key"
      case MissingField(field) => ProcessPrefix + "'" + field + "'"
    }
  }

  const DecodePrefix := "Error decoding quiz JSON: "
  const ProcessPrefix := "Error processing quiz data: "

  predicate StartsWith(s: string, p: string) {
    |p| <= |s| && s[..|p|] == p
  }

  const BlankLine := "\n\n"
  const OpenBrace := "{"

  /** The three fields copied from every item, in the order the record lists them. */
  const RequiredFields := ["mcq", "options", "correct"]

  /** `"".join(quiz_data)` for a list, the string itself otherwise. */
  function InputText(input: QuizInput): (r: string)
    ensures input.Text? ==> r == input.s
    ensures input.Pieces? ==> forall c :: c in r <==> exists i :: 0 <= i < |input.parts| && c in input.parts[i]
  {
    match input
    case Text(s) => s
    case Pieces(parts) =>
      assert forall c :: c in Join("", parts) <==> exists i :: 0 <= i < |parts| && c in parts[i] by {
        forall c { JoinNoSeparator(parts, c); }
      }
      Join("", parts)
  }

  /** From a '{' at `start`: the text before the first blank line, stripped. */
  function ExtractAt(s: string, start: nat): string
    requires start < |s|
  {
    Strip(SplitHead(s[start..], BlankLine))
  }

  /**
   * From `from` to `k` the text holds only whitespace, and at `k` it ends
   * or a blank line begins.
   */
  predicate EndsBlock(s: string, from: int, k: int) {
    && 0 <= from <= k <= |s|
    && (forall m :: from <= m < k ==> IsSpace(s[m]))
    && (k == |s| || OccursAt(s, BlankLine, k))
  }

  /** After `t`, standing at `start`, the block ends at `k`. */
  predicate EndsAfter(s: string, start: nat, t: string, k: int) {
    EndsBlock(s, start + |t|, k)
  }

  /**
   * `t` is the text cut from index `start` of `s`: it stands there, holds no
   * start of a blank line, ends in a non-space, and is followed by
   * whitespace up to the end or to a blank line.
   */
  ghost predicate CutAt(s: string, start: nat, t: string) {
    && |t| > 0 && start + |t| <= |s| && s[start..start + |t|] == t
    && !IsSpace(t[|t| - 1])
    && (forall j :: start <= j < start + |t| ==> !OccursAt(s, BlankLine, j))
    && exists k :: EndsAfter(s, start, t, k)
  }

  /** A cut is never longer than another cut from the same place. */
  lemma CutNoLonger(s: string, start: nat, t1: string, t2: string)
    requires CutAt(s, start, t1) && CutAt(s, start, t2)
    ensures |t2| <= |t1|
  {
    var k1 :| EndsAfter(s, start, t1, k1);
    assert k1 >= start + |t2|;
    assert s[start + |t2| - 1] == t2[|t2| - 1];
  }

  /** There is at most one cut from a given place: the cut text is determined by the input. */
  lemma CutUnique(s: string, start: nat, t1: string, t2: string)
    requires CutAt(s, start, t1) && CutAt(s, start, t2)
    ensures t1 == t2
  {
    CutNoLonger(s, start, t1, t2);
    CutNoLonger(s, start, t2, t1);
  }

  /** What is cut at a '{' starts with it and is the cut from there. */
  lemma ExtractAtFacts(s: string, start: nat)
    requires start < |s| && s[start] == '{'
    ensures var text := ExtractAt(s, start);
              && CutAt(s, start, text)
              && text[0] == '{'
              && (forall j :: !OccursAt(text, BlankLine, j))
  {
    var head := SplitHead(s[start..], BlankLine);
    HeadStartsWithBrace(s, start);
    var text := Strip(head);
    forall j | OccursAt(text, BlankLine, j) ensures false {
      OccursInPrefix(head, |text|, BlankLine, j);
    }
    HeadIsCut(s, start, head, text);
  }

  /** The text before the first blank line from a '{' starts with that '{'. */
  lemma HeadStartsWithBrace(s: string, start: nat)
    requires start < |s| && s[start] == '{'
    ensures var head := SplitHead(s[start..], BlankLine); |head| > 0 && head[0] == '{'
  {
    var sliced := s[start..];
    var head := SplitHead(sliced, BlankLine);
    BlankLineAt(sliced, 0);
    assert sliced[0] == '{';
  }

  /**
   * A stripped head that starts with a non-space, cut before the first
   * blank line of the text from `start`, is the cut from `start`.
   */
  lemma HeadIsCut(s: string, start: nat, head: string, text: string)
    requires start <= |s| && head == SplitHead(s[start..], BlankLine)
    requires |text| > 0 && !IsSpace(text[|text| - 1]) && |text| <= |head| && text == head[..|text|]
    requires forall i :: |text| <= i < |head| ==> IsSpace(head[i])
    ensures CutAt(s, start, text)
  {
    var sliced := s[start..];
    assert s[start..start + |text|] == sliced[..|text|];
    forall j | start <= j < start + |text| ensures !OccursAt(s, BlankLine, j) {
      OccursInSuffix(s, start, BlankLine, j - start);
    }
    var k := start + |head|;
    forall m | start + |text| <= m < k ensures IsSpace(s[m]) {
      assert s[m] == head[m - start];
    }
    if head != sliced {
      OccursInSuffix(s, start, BlankLine, |head|);
    }
    assert EndsAfter(s, start, text, k);
  }

  /**
   * The text handed to the decoder: from the first '{' to the first blank
   * line, stripped; None when the input holds no '{'.
   */
  function ExtractJsonText(s: string): (r: Option<string>)
    ensures r.None? <==> '{' !in s
    ensures r.Some? ==>
              var start := Find(s, OpenBrace);
              && 0 <= start < |s| && s[start] == '{' && '{' !in s[..start]
              && CutAt(s, start, r.value)
              && r.value[0] == '{'
              && (forall j :: !OccursAt(r.value, BlankLine, j))
  {
    FindChar(s, '{');
    var start := Find(s, OpenBrace);
    if start == -1 then None
    else
      ExtractAtFacts(s, start);
      Some(ExtractAt(s, start))
  }

  /**
   * The converse: prose without a '{', then an object ending in a non-space,
   * then whitespace, then the end or a blank line and anything at all. When
   * no blank line starts inside the object and its trailing whitespace, the
   * object is exactly what is extracted.
   */
  lemma ExtractRecovers(prefix: string, body: string, ws: string, tail: string)
    requires '{' !in prefix
    requires |body| > 0 && body[0] == '{' && !IsSpace(body[|body| - 1])
    requires forall k :: 0 <= k < |ws| ==> IsSpace(ws[k])
    requires forall j :: !OccursAt(body + ws, BlankLine, j)
    requires tail == [] || OccursAt(tail, BlankLine, 0)
    ensures ExtractJsonText(prefix + body + ws + tail) == Some(body)
  {
    var s := prefix + body + ws + tail;
    FirstBraceAfter(prefix, body + ws + tail);
    assert s == prefix + (body + ws + tail);
    BodyIsCut(prefix, body, ws, tail);
    CutUnique(s, |prefix|, body, ExtractJsonText(s).value);
  }

  /** In the layout of ExtractRecovers, the object is the cut after the prose. */
  lemma BodyIsCut(prefix: string, body: string, ws: string, tail: string)
    requires |body| > 0 && !IsSpace(body[|body| - 1])
    requires forall k :: 0 <= k < |ws| ==> IsSpace(ws[k])
    requires forall j :: !OccursAt(body + ws, BlankLine, j)
    requires tail == [] || OccursAt(tail, BlankLine, 0)
    ensures CutAt(prefix + body + ws + tail, |prefix|, body)
  {
    var s := prefix + body + ws + tail;
    var p := |prefix|;
    var e := p + |body| + |ws|;
    assert s[p..p + |body|] == body;
    assert s[p..e] == body + ws;
    forall j | p <= j < p + |body| ensures !OccursAt(s, BlankLine, j) {
      NoBlankInside(s, p, body + ws, |body|, j);
    }
    forall m | p + |body| <= m < e ensures IsSpace(s[m]) {
      assert s[m] == ws[m - p - |body|];
    }
    if tail != [] {
      assert s[e..e + 2] == tail[0..2];
    }
    assert EndsAfter(s, p, body, e);
  }

  /**
   * No blank line starts in the first `n` characters of `u`, placed at `p`
   * in `s`, when `u` has none and its `n`-th character is not a newline.
   */
  lemma NoBlankInside(s: string, p: nat, u: string, n: nat, j: int)
    requires p + |u| <= |s| && s[p..p + |u|] == u
    requires 0 < n <= |u| && u[n - 1] != '\n'
    requires forall i :: !OccursAt(u, BlankLine, i)
    requires p <= j < p + n
    ensures !OccursAt(s, BlankLine, j)
  {
    BlankLineAt(s, j);
    BlankLineAt(u, j - p);
    assert s[j] == u[j - p];
    if j + 2 <= p + |u| {
      assert s[j + 1] == u[j - p + 1];
    }
  }

  /** A blank line starts at `i` exactly when two newlines stand there. */
  lemma BlankLineAt(x: string, i: int)
    ensures OccursAt(x, BlankLine, i) <==> 0 <= i && i + 2 <= |x| && x[i] == '\n' && x[i + 1] == '\n'
  {
    if 0 <= i && i + 2 <= |x| {
      assert x[i..i + 2] == [x[i], x[i + 1]];
    }
  }

  /** The first '{' of `prefix + rest` is the first of `rest` when `prefix` has none. */
  lemma FirstBraceAfter(prefix: string, rest: string)
    requires '{' !in prefix && |rest| > 0 && rest[0] == '{'
    ensures Find(prefix + rest, OpenBrace) == |prefix|
  {
    var s := prefix + rest;
    FindChar(s, '{');
    var r := Find(s, OpenBrace);
    assert s[|prefix|] == '{';
  }

  /** Step 1 and 2: extract the JSON text and decode it. */
  function DecodeQuiz(input: QuizInput, decode: Decoder): (r: Result<Json, CleanError>)
    ensures r == Failure(NoJsonObject) <==> '{' !in InputText(input)
    ensures '{' in InputText(input) ==>
              var text := ExtractJsonText(InputText(input)).value;
              && (decode(text).Failure? ==> r == Failure(DecodeError(decode(text).error)))
              && (decode(text).Success? ==> r == Success(decode(text).value))
  {
    match ExtractJsonText(InputText(input))
    case None => Failure(NoJsonObject)
    case Some(text) =>
      match decode(text)
      case Failure(reason) => Failure(DecodeError(reason))
      case Success(quiz) => Success(quiz)
  }

  /** `value[k]` for one of the required fields; the item must be a dict holding `k`. */
  predicate Has(item: Json, k: string) {
    item.JObject? && HasKey(item.fields, k)
  }

  /** An item from which `clean_quiz_data` can copy all three fields. */
  predicate Selectable(item: Json) {
    Has(item, "mcq") && Has(item, "options") && Has(item, "correct")
  }

  /**
   * The record `{"mcq": ..., "options": ..., "correct": ...}` built from one
   * item, or the KeyError or TypeError Python raises, in evaluation order.
   */
  function SelectItem(item: Json): (r: Result<Json, CleanError>)
    ensures r.Success? <==> Selectable(item)
  {
    if !item.JObject? then Failure(ItemNotObject)
    else
      match Lookup(item.fields, "mcq")
      case None => Failure(MissingField("mcq"))
      case Some(mcq) =>
        match Lookup(item.fields, "options")
        case None => Failure(MissingField("options"))
        case Some(options) =>
          match Lookup(item.fields, "correct")
          case None => Failure(MissingField("correct"))
          case Some(correct) =>
            Success(JObject([("mcq", mcq), ("options", options), ("correct", correct)]))
  }

  /** A record has exactly the three fields, in order, each copied unchanged from the item. */
  lemma SelectItemCopies(item: Json)
    requires Selectable(item)
    ensures var record := SelectItem(item).value;
              && record.JObject?
              && |record.fields| == |RequiredFields|
              && (forall i :: 0 <= i < |RequiredFields| ==> record.fields[i].0 == RequiredFields[i])
              && (forall i :: 0 <= i < |RequiredFields| ==>
                    Lookup(item.fields, RequiredFields[i]) == Some(record.fields[i].1))
  {
  }

  /** Cleaning is idempotent on one item: a record selects to itself. */
  lemma SelectItemIdempotent(item: Json)
    requires Selectable(item)
    ensures SelectItem(SelectItem(item).value) == SelectItem(item)
  {
    var record := SelectItem(item).value;
    LookupAt(record.fields, 0, "mcq");
    LookupAt(record.fields, 1, "options");
    LookupAt(record.fields, 2, "correct");
  }

  /**
   * Which error an item raises: a TypeError when it is not a dict, else the
   * KeyError of the first of mcq, options, correct that it lacks.
   */
  lemma SelectItemErrors(item: Json)
    ensures SelectItem(item) == Failure(ItemNotObject) <==> !item.JObject?
    ensures SelectItem(item) == Failure(MissingField("mcq")) <==> item.JObject? && !Has(item, "mcq")
    ensures SelectItem(item) == Failure(MissingField("options")) <==>
              Has(item, "mcq") && !Has(item, "options")
    ensures SelectItem(item) == Failure(MissingField("correct")) <==>
              Has(item, "mcq") && Has(item, "options") && !Has(item, "correct")
    ensures SelectItem(item).Failure? ==>
              SelectItem(item).error == ItemNotObject
              || (SelectItem(item).error.MissingField? && SelectItem(item).error.field in RequiredFields)
  {
  }

  /** The record for one (key, item) pair of the top-level object; the key itself is dropped. */
  function SelectEntry(entry: (string, Json)): Result<Json, CleanError> {
    SelectItem(entry.1)
  }

  /** `clean_quiz_data` as a function of its input and of the decoder. */
  function Clean(input: QuizInput, decode: Decoder): (r: Result<seq<Json>, CleanError>)
    ensures r == Failure(NoJsonObject) <==> '{' !in InputText(input)
    ensures r.Success? ==>
              var quiz := DecodeQuiz(input, decode);
              && quiz.Success? && quiz.value.JObject?
              && MapAll(quiz.value.fields, SelectEntry) == r
    ensures DecodeQuiz(input, decode).Failure? ==> r == Failure(DecodeQuiz(input, decode).error)
    ensures DecodeQuiz(input, decode).Success? && !DecodeQuiz(input, decode).value.JObject? ==>
              r == Failure(TopLevelNotObject)
  {
    match DecodeQuiz(input, decode)
    case Failure(e) => Failure(e)
    case Success(quiz) =>
      if quiz.JObject? then MapAll(quiz.fields, SelectEntry) else Failure(TopLevelNotObject)
  }

  /**
   * The two messages of `clean_quiz_data` tell the failures apart: a failed
   * call says "Error decoding quiz JSON" exactly when the decoder rejected
   * the extracted text.
   */
  lemma DecodeFailureMessage(input: QuizInput, decode: Decoder)
    requires Clean(input, decode).Failure?
    ensures StartsWith(Clean(input, decode).error.Message(), DecodePrefix) <==>
              '{' in InputText(input) && decode(ExtractJsonText(InputText(input)).value).Failure?
  {
    var e := Clean(input, decode).error;
    var m := e.Message();
    if !e.DecodeError? {
      assert m[..|ProcessPrefix|] == ProcessPrefix;
      assert m[6] == ProcessPrefix[6] != DecodePrefix[6];
    }
  }

  /**
   * What cleaning a decoded quiz object gives: one record per item, in key
   * order, each holding exactly the item's mcq, options and correct; or,
   * when some item lacks a field, the error of the first such item and no
   * records at all.
   */
  lemma {:induction false} CleanRecords(input: QuizInput, decode: Decoder)
    requires DecodeQuiz(input, decode).Success? && DecodeQuiz(input, decode).value.JObject?
    ensures var items := DecodeQuiz(input, decode).value.fields;
            var r := Clean(input, decode);
            && (r.Success? <==> forall i :: 0 <= i < |items| ==> Selectable(items[i].1))
            && (r.Success? ==>
                  && |r.value| == |items|
                  && forall i :: 0 <= i < |items| ==>
                       r.value[i] == JObject([("mcq", Lookup(items[i].1.fields, "mcq").value),
                                              ("options", Lookup(items[i].1.fields, "options").value),
                                              ("correct", Lookup(items[i].1.fields, "correct").value)]))
            && (r.Failure? ==>
                  exists j :: 0 <= j < |items| && !Selectable(items[j].1) && SelectItem(items[j].1) == Failure(r.error)
                              && forall i :: 0 <= i < j ==> Selectable(items[i].1))
  {
    var items := DecodeQuiz(input, decode).value.fields;
    var r := Clean(input, decode);
    assert r == MapAll(items, SelectEntry);
    if r.Success? {
      forall i | 0 <= i < |items|
        ensures r.value[i] == JObject([("mcq", Lookup(items[i].1.fields, "mcq").value),
                                       ("options", Lookup(items[i].1.fields, "options").value),
                                       ("correct", Lookup(items[i].1.fields, "correct").value)])
      {
        assert SelectEntry(items[i]) == Success(r.value[i]);
      }
    } else {
      var j :| 0 <= j < |items| && SelectEntry(items[j]) == Failure(r.error)
               && forall i :: 0 <= i < j ==> SelectEntry(items[i]).Success?;
      assert !Selectable(items[j].1);
    }
  }

  /** `clean_quiz_data`: the loop appends one record per item and stops at the first failure. */
  method CleanQuizData(input: QuizInput, decode: Decoder) returns (r: Result<seq<Json>, CleanError>)
    ensures r == Clean(input, decode)
  {
    var decoded := DecodeQuiz(input, decode);
    if decoded.Failure? {
      return Failure(decoded.error);
    }
    var quiz := decoded.value;
    if !quiz.JObject? {
      return Failure(TopLevelNotObject);
    }
    var mcqList: seq<Json> := [];
    var i := 0;
    while i < |quiz.fields|
      invariant 0 <= i <= |quiz.fields|
      invariant MapAll(quiz.fields[..i], SelectEntry) == Success(mcqList)
    {
      var mcq := SelectEntry(quiz.fields[i]);
      if mcq.Failure? {
        MapAllStopsAt(quiz.fields, i, SelectEntry);
        return Failure(mcq.error);
      }
      MapAllStep(quiz.fields, i, SelectEntry, mcqList);
      mcqList := mcqList + [mcq.value];
      i := i + 1;
    }
    assert quiz.fields[..i] == quiz.fields;
    return Success(mcqList);
  }
}

=== FILE: quiz_examples.dfy ===
/**
 * Worked scenarios: the quiz answer a model typically returns, a quiz
 * whose correct answer is not among its options, and what happens to
 * prose that follows the JSON on the next line.
 */
module QuizExamples {
  import opened Results
  import opened JsonValues
  import opened PyStrings
  import opened QuizClean
  import opened QuizTable
  import opened QuizValidation

  /** The decoded one-question quiz `{"1": {"mcq": "2+2?", "options": {"A": "3", "B": "4"}, "correct": "B"}}`. */
  const QuizOptions := [("A", JString("3")), ("B", JString("4"))]
  const QuizItem := JObject([("mcq", JString("2+2?")), ("options", JObject(QuizOptions)), ("correct", JString("B"))])
  const QuizValue := JObject([("1", QuizItem)])
  const QuizRow := Row(JString("2+2?"), "A -> 3 || B -> 4", JString("B"))

  /** A string with no newline holds no blank line, even after one newline is inserted. */
  lemma NoBlankLineAroundOneNewline(a: string, b: string)
    requires '\n' !in a && '\n' !in b
    ensures forall j :: !OccursAt(a + "\n" + b, BlankLine, j)
  {
    var s := a + "\n" + b;
    forall j | 0 <= j < |s| - 1 ensures !OccursAt(s, BlankLine, j) {
      assert s[j..j + 2][0] == s[j] && s[j..j + 2][1] == s[j + 1];
      if j < |a| {
        assert s[j] == a[j];
      } else {
        assert s[j + 1] == b[j - |a|];
      }
    }
  }

  /** A string with no newline holds no blank line. */
  lemma NoBlankLineWithoutNewline(a: string)
    requires '\n' !in a
    ensures forall j :: !OccursAt(a, BlankLine, j)
  {
    forall j | 0 <= j < |a| - 1 ensures !OccursAt(a, BlankLine, j) {
      assert a[j..j + 2][0] == a[j];
    }
  }

  /** The quiz item has all three fields and its options are a dict. */
  lemma QuizItemPasses()
    ensures Selectable(QuizItem) && ItemProblem(QuizItem) == None
    ensures SelectItem(QuizItem) == Success(QuizItem)
  {
    var fields := QuizItem.fields;
    LookupAt(fields, 0, "mcq");
    LookupAt(fields, 1, "options");
    LookupAt(fields, 2, "correct");
  }

  /** The options of the quiz item render as "A -> 3 || B -> 4". */
  lemma QuizChoices()
    ensures Choices(QuizOptions) == "A -> 3 || B -> 4"
  {
    var e := Entries(QuizOptions);
    assert e[0] == Entry(("A", JString("3"))) == "A -> 3";
    assert e[1] == Entry(("B", JString("4"))) == "B -> 4";
    assert Join(ChoiceSeparator, e[1..]) == "B -> 4";
  }

  /** The record of the quiz item renders as the expected row. */
  lemma QuizItemRow()
    ensures RowOf(QuizItem) == Success(QuizRow)
  {
    QuizItemPasses();
    QuizChoices();
  }

  /** The one-line quiz after some prose is found and handed to the decoder whole. */
  lemma QuizDecodes(preamble: string, text: string, decode: Decoder)
    requires '{' !in preamble && '\n' !in text
    requires |text| > 0 && text[0] == '{' && text[|text| - 1] == '}'
    requires decode(text) == Success(QuizValue)
    ensures DecodeQuiz(Text(preamble + text), decode) == Success(QuizValue)
  {
    NoBlankLineWithoutNewline(text);
    assert text + "" == text;
    ExtractRecovers(preamble, text, "", "");
    assert preamble + text + "" + "" == preamble + text;
  }

  /** A quiz with one selectable item cleans to that item's record. */
  lemma CleanOneItem(input: QuizInput, decode: Decoder, key: string, item: Json, record: Json)
    requires DecodeQuiz(input, decode) == Success(JObject([(key, item)]))
    requires SelectItem(item) == Success(record)
    ensures Clean(input, decode) == Success([record])
  {
    var fields := [(key, item)];
    assert SelectEntry(fields[0]) == Success(record);
    assert fields[..0] == [] && fields[..1] == fields;
    MapAllStep(fields, 0, SelectEntry, []);
    assert [] + [record] == [record];
  }

  /** A list with one renderable record gives a table of that record's row. */
  lemma TableOneItem(decode: Decoder, item: Json, row: Row)
    requires RowOf(item) == Success(row)
    ensures TableData(ListArg([item]), decode) == Some([row])
  {
    var items := [item];
    assert Renderable(items[0]);
    var t := TableData(ListArg(items), decode);
    assert t.Some? && |t.value| == 1 && RowOf(items[0]) == Success(t.value[0]);
    assert t.value == [row];
  }

  /** The intended check accepts a quiz whose one item passes. */
  lemma AcceptOneItem(input: QuizInput, decode: Decoder, key: string, item: Json)
    requires DecodeQuiz(input, decode) == Success(JObject([(key, item)]))
    requires SelectItem(item).Success? && ItemProblem(item) == None
    ensures FormatValid(input, decode)
  {
    CleanOneItem(input, decode, key, item, SelectItem(item).value);
    var fields := [(key, item)];
    assert ItemProblem(fields[0].1) == None;
  }

  /**
   * A quiz that the model wrote on one line after some prose goes through
   * the whole pipeline: cleaning gives the item back as the one record, the
   * check accepts it, the table has the one expected row, and the function
   * as written lets a TypeError escape instead of returning True.
   */
  lemma OneQuestionQuiz(preamble: string, text: string, decode: Decoder)
    requires '{' !in preamble && '\n' !in text
    requires |text| > 0 && text[0] == '{' && text[|text| - 1] == '}'
    requires decode(text) == Success(QuizValue)
    ensures Clean(Text(preamble + text), decode) == Success([QuizItem])
    ensures FormatValid(Text(preamble + text), decode)
    ensures TableData(ListArg([QuizItem]), decode) == Some([QuizRow])
    ensures ValidateAsWritten(Text(preamble + text), decode) == Raises(TypeError)
  {
    QuizDecodes(preamble, text, decode);
    QuizItemPasses();
    CleanOneItem(Text(preamble + text), decode, "1", QuizItem, QuizItem);
    AcceptOneItem(Text(preamble + text), decode, "1", QuizItem);
    QuizItemRow();
    TableOneItem(decode, QuizItem, QuizRow);
  }

  /**
   * Prose after the JSON on the next line (no blank line between) is not
   * cut off: it is handed to the decoder together with the object.
   */
  lemma ProseOnNextLineIsKept(preamble: string, text: string, prose: string)
    requires '{' !in preamble && '\n' !in text && '\n' !in prose
    requires |text| > 0 && text[0] == '{'
    requires |prose| > 0 && !IsSpace(prose[|prose| - 1])
    ensures ExtractJsonText(preamble + (text + "\n" + prose)) == Some(text + "\n" + prose)
  {
    var body := text + "\n" + prose;
    ProseBody(text, prose);
    assert body + "" == body;
    ExtractRecovers(preamble, body, "", "");
    assert preamble + body + "" + "" == preamble + body;
  }

  /** The object and the prose line after it form an extractable body. */
  lemma ProseBody(text: string, prose: string)
    requires '\n' !in text && '\n' !in prose
    requires |text| > 0 && text[0] == '{'
    requires |prose| > 0 && !IsSpace(prose[|prose| - 1])
    ensures var body := text + "\n" + prose;
            && |body| > 0 && body[0] == '{' && !IsSpace(body[|body| - 1])
            && forall j :: !OccursAt(body, BlankLine, j)
  {
    NoBlankLineAroundOneNewline(text, prose);
    var body := text + "\n" + prose;
    assert body[|body| - 1] == prose[|prose| - 1];
  }

  /**
   * The source does not check that the correct answer is one of the
   * options: an item whose answer "E" names none of A to D passes the check
   * and is rendered like any other.
   */
  lemma DanglingCorrectAccepted(options: seq<(string, Json)>)
    requires |options| == 4
    requires forall i :: 0 <= i < 4 ==> options[i].0 == ["ABCD"[i]]
    ensures var item := JObject([("mcq", JString("Pick one")), ("options", JObject(options)), ("correct", JString("E"))]);
            && (forall i :: 0 <= i < |options| ==> options[i].0 != "E")
            && ItemProblem(item) == None
            && RowOf(item).Success?
            && RowOf(item).value.correct == JString("E")
  {
    var item := JObject([("mcq", JString("Pick one")), ("options", JObject(options)), ("correct", JString("E"))]);
    LookupAt(item.fields, 0, "mcq");
    LookupAt(item.fields, 1, "options");
    LookupAt(item.fields, 2, "correct");
  }
}

=== FILE: quiz_table.dfy ===
/**
 * `get_table_data` (src/GenAI/utils.py): flatten the records into display
 * rows whose choices are rendered as `"<key> -> <value>"` joined by `" || "`,
 * or give `None` when anything about the input is malformed.
 */
module QuizTable {
  import opened Results
  import opened JsonValues
  import opened PyStrings

  /** One display row: `{"MCQ": ..., "Choices": ..., "Correct": ...}`. */
  datatype Row = Row(mcq: Json, choices: string, correct: Json)

  /**
   * What the caller passes: a list of records, a JSON string, or any other
   * Python value (rejected).
   */
  datatype TableInput = ListArg(items: seq<Json>) | StrArg(text: string) | OtherArg

  const ChoiceSeparator := " || "
  const LabelArrow := " -> "

  /** `f"{option} -> {option_value}"` for one option. */
  function Entry(option: (string, Json)): string {
    option.0 + LabelArrow + PyStr(option.1)
  }

  /** The rendered options, in the options' own order. */
  function Entries(options: seq<(string, Json)>): (r: seq<string>)
    ensures |r| == |options|
    ensures forall i :: 0 <= i < |options| ==> r[i] == Entry(options[i])
  {
    if options == [] then [] else [Entry(options[0])] + Entries(options[1..])
  }

  /** The `Choices` column: `" || ".join(...)` of the rendered options. */
  function Choices(options: seq<(string, Json)>): string {
    Join(ChoiceSeparator, Entries(options))
  }

  /** A record from which `get_table_data` can build a row. */
  predicate Renderable(item: Json) {
    && item.JObject?
    && Lookup(item.fields, "mcq").Some?
    && Lookup(item.fields, "options").Some?
    && Lookup(item.fields, "options").value.JObject?
    && Lookup(item.fields, "correct").Some?
  }

  /** Why Python raises while building a row (the exception `get_table_data` swallows). */
  datatype RowError = RecordNotObject | RecordMissing(field: string) | OptionsNotObject

  /**
   * The row for one record, or the reason Python raises: the record is not
   * a dict, lacks a field, or its options have no `.items()`.
   */
  function RowOf(item: Json): (r: Result<Row, RowError>)
    ensures r.Success? <==> Renderable(item)
  {
    if !item.JObject? then Failure(RecordNotObject)
    else
      match Lookup(item.fields, "mcq")
      case None => Failure(RecordMissing("mcq"))
      case Some(mcq) =>
        match Lookup(item.fields, "options")
        case None => Failure(RecordMissing("options"))
        case Some(options) =>
          if !options.JObject? then Failure(OptionsNotObject)
          else
            match Lookup(item.fields, "correct")
            case None => Failure(RecordMissing("correct"))
            case Some(correct) => Success(Row(mcq, Choices(options.fields), correct))
  }

  /**
   * A row copies MCQ and Correct from the record and renders its options,
   * in their own order, as the Choices string.
   */
  lemma RowOfCopies(item: Json)
    requires Renderable(item)
    ensures var row := RowOf(item).value;
              && Some(row.mcq) == Lookup(item.fields, "mcq")
              && Some(row.correct) == Lookup(item.fields, "correct")
              && row.choices == Join(ChoiceSeparator, Entries(Lookup(item.fields, "options").value.fields))
  {
  }

  /**
   * Python's `for item in value` over a decoded value: a list gives its
   * elements, a dict its keys, a string its characters; anything else is
   * not iterable.
   */
  function Iterate(v: Json): (r: Option<seq<Json>>)
    ensures r.None? <==> !(v.JArray? || v.JObject? || v.JString?)
    ensures v.JArray? ==> r == Some(v.elems)
    ensures v.JObject? ==> |r.value| == |v.fields| && forall i :: 0 <= i < |v.fields| ==> r.value[i] == JString(v.fields[i].0)
    ensures v.JString? ==> |r.value| == |v.s| && forall i :: 0 <= i < |v.s| ==> r.value[i] == JString([v.s[i]])
  {
    match v
    case JArray(elems) => Some(elems)
    case JObject(fields) => Some(seq(|fields|, i requires 0 <= i < |fields| => JString(fields[i].0)))
    case JString(s) => Some(seq(|s|, i requires 0 <= i < |s| => JString([s[i]])))
    case _ => None
  }

  /** The items `get_table_data` iterates over, or None where it raises first. */
  function TableItems(input: TableInput, decode: Decoder): (r: Option<seq<Json>>)
    ensures input.ListArg? ==> r == Some(input.items)
    ensures input.OtherArg? ==> r.None?
    ensures input.StrArg? ==>
              if decode(input.text).Failure? then r.None? else r == Iterate(decode(input.text).value)
  {
    match input
    case ListArg(items) => Some(items)
    case StrArg(text) =>
      (match decode(text)
       case Failure(_) => None
       case Success(value) => Iterate(value))
    case OtherArg => None
  }

  /** `get_table_data` as a function of its input and of the decoder: all rows, or None. */
  function TableData(input: TableInput, decode: Decoder): (r: Option<seq<Row>>)
    ensures input.OtherArg? ==> r.None?
    ensures input.ListArg? ==>
              && (r.Some? <==> forall i :: 0 <= i < |input.items| ==> Renderable(input.items[i]))
              && (r.Some? ==>
                    && |r.value| == |input.items|
                    && forall i :: 0 <= i < |input.items| ==> RowOf(input.items[i]) == Success(r.value[i]))
  {
    match TableItems(input, decode)
    case None => None
    case Some(items) =>
      match MapAll(items, RowOf)
      case Failure(_) => None
      case Success(rows) => Some(rows)
  }

  /**
   * `get_table_data` on a JSON string: a decode failure or a value that
   * cannot be iterated gives None; otherwise the string behaves like the
   * list of what iterating its value yields. A non-empty dict yields its
   * keys and a non-empty string its characters, none of which is a record,
   * so both give None.
   */
  lemma TableDataOfString(text: string, decode: Decoder)
    ensures decode(text).Failure? ==> TableData(StrArg(text), decode).None?
    ensures decode(text).Success? ==>
              var items := Iterate(decode(text).value);
              && (items.None? ==> TableData(StrArg(text), decode).None?)
              && (items.Some? ==> TableData(StrArg(text), decode) == TableData(ListArg(items.value), decode))
    ensures decode(text).Success? && decode(text).value.JObject? ==>
              (TableData(StrArg(text), decode).Some? <==> |decode(text).value.fields| == 0)
    ensures decode(text).Success? && decode(text).value.JString? ==>
              (TableData(StrArg(text), decode).Some? <==> |decode(text).value.s| == 0)
  {
    if decode(text).Success? {
      var items := Iterate(decode(text).value);
      if items.Some? {
        assert TableData(StrArg(text), decode) == TableData(ListArg(items.value), decode);
        if |items.value| > 0 && (decode(text).value.JObject? || decode(text).value.JString?) {
          assert items.value[0].JString?;
          assert !Renderable(items.value[0]);
        }
      }
    }
  }

  /** `get_table_data`: the loop appends one row per record; any failure discards the rows built so far. */
  method GetTableData(input: TableInput, decode: Decoder) returns (r: Option<seq<Row>>)
    ensures r == TableData(input, decode)
  {
    var quizDict := TableItems(input, decode);
    if quizDict.None? {
      return None;
    }
    var items := quizDict.value;
    var quizTableData: seq<Row> := [];
    var i := 0;
    while i < |items|
      invariant 0 <= i <= |items|
      invariant MapAll(items[..i], RowOf) == Success(quizTableData)
    {
      var row := RowOf(items[i]);
      if row.Failure? {
        MapAllStopsAt(items, i, RowOf);
        return None;
      }
      MapAllStep(items, i, RowOf, quizTableData);
      quizTableData := quizTableData + [row.value];
      i := i + 1;
    }
    assert items[..i] == items;
    return Some(quizTableData);
  }

  /** Reading a `Choices` string back: split at `" || "`, then each entry at its first `" -> "`. */
  function ParseChoices(choices: string): seq<(string, string)> {
    var entries := Split(choices, ChoiceSeparator);
    seq(|entries|, i requires 0 <= i < |entries| => Partition(entries[i], LabelArrow))
  }

  /**
   * The rendering of a non-empty options dict is invertible (an empty one
   * renders as "", which reads back as one empty pair): when no `" -> "`
   * starts inside a label followed by `" -> "`, and no `" || "` starts
   * inside an entry followed by `" || "` (Separable), reading the choices
   * back gives every label with its displayed text, in order.
   */
  lemma ChoicesRoundTrip(options: seq<(string, Json)>)
    requires |options| > 0
    requires forall i :: 0 <= i < |options| ==> Separable(options[i].0, LabelArrow)
    requires forall i :: 0 <= i < |options| ==> Separable(Entry(options[i]), ChoiceSeparator)
    ensures ParseChoices(Choices(options)) ==
              seq(|options|, i requires 0 <= i < |options| => (options[i].0, PyStr(options[i].1)))
  {
    var entries := Entries(options);
    SplitJoin(entries, ChoiceSeparator);
    forall i | 0 <= i < |options|
      ensures Partition(entries[i], LabelArrow) == (options[i].0, PyStr(options[i].1))
    {
      PartitionSeparable(options[i].0, LabelArrow, PyStr(options[i].1));
    }
  }
}

=== FILE: quiz_validate.dfy ===
/**
 * `validate_quiz_format` (src/GenAI/utils.py): the per-item schema check,
 * in the form its loop evidently intends (applied to the decoded object),
 * and the function as written, which can never report success.
 */
module QuizValidation {
  import opened Results
  import opened JsonValues
  import opened QuizClean
  import opened QuizTable

  /** What is wrong with an item: a required field is missing, or its options are not a dict. */
  datatype Problem = MissingFields | BadOptions

  /** The outcome of the per-item check, naming the first failing item key. */
  datatype Verdict = Accepted | Rejected(key: string, problem: Problem)

  /**
   * The problem with one item, checked in the source's order. Keys of a
   * decoded JSON object are always strings, so "options is a dict with
   * string keys" is "options is a dict". An item that is not a dict has no
   * fields.
   */
  function ItemProblem(item: Json): (r: Option<Problem>)
    ensures r == Some(MissingFields) <==> !Selectable(item)
    ensures r == Some(BadOptions) <==> Selectable(item) && !Lookup(item.fields, "options").value.JObject?
    ensures r.None? <==> Selectable(item) && Lookup(item.fields, "options").value.JObject?
  {
    if !Selectable(item) then Some(MissingFields)
    else if !Lookup(item.fields, "options").value.JObject? then Some(BadOptions)
    else None
  }

  /** The loop body for one (key, item) pair: pass, or fail with the key and the problem. */
  function CheckEntry(entry: (string, Json)): Result<(), (string, Problem)> {
    match ItemProblem(entry.1)
    case None => Success(())
    case Some(p) => Failure((entry.0, p))
  }

  /**
   * The intended check over the items of the decoded object: accepted when
   * every item passes, otherwise rejected naming the first failing key.
   */
  function CheckItems(items: seq<(string, Json)>): (v: Verdict)
    ensures v.Accepted? <==> forall i :: 0 <= i < |items| ==> ItemProblem(items[i].1).None?
    ensures v.Rejected? ==>
              exists j :: 0 <= j < |items|
                && items[j].0 == v.key
                && ItemProblem(items[j].1) == Some(v.problem)
                && forall i :: 0 <= i < j ==> ItemProblem(items[i].1).None?
  {
    var r := MapAll(items, CheckEntry);
    assert forall i :: 0 <= i < |items| ==> (CheckEntry(items[i]).Success? <==> ItemProblem(items[i].1).None?);
    match r
    case Success(_) => Accepted
    case Failure(e) => Rejected(e.0, e.1)
  }

  /**
   * `validate_quiz_format` as intended: True exactly when cleaning succeeds
   * and every item of the decoded object passes the per-item check.
   */
  function FormatValid(input: QuizInput, decode: Decoder): bool {
    && Clean(input, decode).Success?
    && CheckItems(DecodeQuiz(input, decode).value.fields).Accepted?
  }

  /**
   * The loop of `validate_quiz_format`: walk the items in key order and
   * stop at the first one with a problem, naming its key.
   */
  method ValidateItems(items: seq<(string, Json)>) returns (verdict: Verdict)
    ensures verdict == CheckItems(items)
  {
    var i := 0;
    while i < |items|
      invariant 0 <= i <= |items|
      invariant forall k :: 0 <= k < i ==> ItemProblem(items[k].1).None?
    {
      var problem := ItemProblem(items[i].1);
      if problem.Some? {
        var expected := CheckItems(items);
        assert expected.Rejected?;
        var j :| 0 <= j < |items| && items[j].0 == expected.key
                 && ItemProblem(items[j].1) == Some(expected.problem)
                 && forall k :: 0 <= k < j ==> ItemProblem(items[k].1).None?;
        assert j == i;
        return Rejected(items[i].0, problem.value);
      }
      i := i + 1;
    }
    return Accepted;
  }

  /** `validate_quiz_format` as intended: clean first (any error gives False), then check every item. */
  method ValidateQuizFormat(input: QuizInput, decode: Decoder) returns (ok: bool)
    ensures ok == FormatValid(input, decode)
  {
    var cleaned := CleanQuizData(input, decode);
    if cleaned.Failure? {
      return false;
    }
    var quiz := DecodeQuiz(input, decode).value;
    var verdict := ValidateItems(quiz.fields);
    return verdict.Accepted?;
  }

  /** A cleaned record can be rendered exactly when the item's options are a dict. */
  lemma RecordRenderable(item: Json)
    requires Selectable(item)
    ensures Renderable(SelectItem(item).value) <==> Lookup(item.fields, "options").value.JObject?
    ensures Renderable(SelectItem(item).value) ==>
              var row := RowOf(SelectItem(item).value).value;
              && Some(row.mcq) == Lookup(item.fields, "mcq")
              && Some(row.correct) == Lookup(item.fields, "correct")
              && row.choices == Choices(Lookup(item.fields, "options").value.fields)
  {
    var record := SelectItem(item).value;
    SelectItemCopies(item);
    assert record.fields[0] == ("mcq", Lookup(item.fields, "mcq").value);
    assert record.fields[1] == ("options", Lookup(item.fields, "options").value);
    assert record.fields[2] == ("correct", Lookup(item.fields, "correct").value);
  }

  /** The intended check accepts the items exactly when all their cleaned records can be rendered. */
  lemma RecordsRenderable(items: seq<(string, Json)>, records: seq<Json>)
    requires MapAll(items, SelectEntry) == Success(records)
    ensures CheckItems(items).Accepted? <==> forall i :: 0 <= i < |records| ==> Renderable(records[i])
  {
    forall i | 0 <= i < |items|
      ensures Renderable(records[i]) <==> ItemProblem(items[i].1).None?
    {
      assert SelectEntry(items[i]) == Success(records[i]);
      RecordRenderable(items[i].1);
    }
  }

  /**
   * Validation agrees with the display pipeline: the intended check accepts
   * exactly when `clean_quiz_data` succeeds and `get_table_data` on its
   * records gives a table rather than None.
   */
  lemma {:induction false} ValidIffPipelineSucceeds(input: QuizInput, decode: Decoder)
    ensures FormatValid(input, decode) <==>
              && Clean(input, decode).Success?
              && TableData(ListArg(Clean(input, decode).value), decode).Some?
  {
    var cleaned := Clean(input, decode);
    if cleaned.Success? {
      var items := DecodeQuiz(input, decode).value.fields;
      RecordsRenderable(items, cleaned.value);
    }
  }

  /**
   * What the display shows for a quiz that passes the check: one row per
   * item, in key order, with the item's question and correct answer and
   * its options rendered as the Choices string.
   */
  lemma {:induction false} PipelineRows(input: QuizInput, decode: Decoder)
    requires FormatValid(input, decode)
    ensures var items := DecodeQuiz(input, decode).value.fields;
            var table := TableData(ListArg(Clean(input, decode).value), decode);
            && table.Some?
            && |table.value| == |items|
            && forall i :: 0 <= i < |items| ==>
                 && Some(table.value[i].mcq) == Lookup(items[i].1.fields, "mcq")
                 && Some(table.value[i].correct) == Lookup(items[i].1.fields, "correct")
                 && table.value[i].choices == Choices(Lookup(items[i].1.fields, "options").value.fields)
  {
    ValidIffPipelineSucceeds(input, decode);
    var items := DecodeQuiz(input, decode).value.fields;
    var records := Clean(input, decode).value;
    var rows := TableData(ListArg(records), decode).value;
    forall i | 0 <= i < |items|
      ensures && Some(rows[i].mcq) == Lookup(items[i].1.fields, "mcq")
              && Some(rows[i].correct) == Lookup(items[i].1.fields, "correct")
              && rows[i].choices == Choices(Lookup(items[i].1.fields, "options").value.fields)
    {
      assert SelectEntry(items[i]) == Success(records[i]);
      assert ItemProblem(items[i].1).None?;
      RecordRenderable(items[i].1);
    }
  }

  /** The Python exceptions that can end the body of `validate_quiz_format`. */
  datatype PyException = ValueError | JsonDecodeError | TypeError | AttributeError

  /** The `except (json.JSONDecodeError, ValueError)` clause: which exceptions become False. */
  predicate Caught(e: PyException) {
    e == ValueError || e == JsonDecodeError
  }

  /** What is handed to `json.loads`: a string, or (as written) the list `clean_quiz_data` returns. */
  datatype LoadsArgument = StrArgument(text: string) | ListArgument(records: seq<Json>)

  /**
   * `json.loads`: a string is decoded, failing with JSONDecodeError; any
   * other argument is refused with TypeError before decoding starts.
   */
  function Loads(arg: LoadsArgument, decode: Decoder): (r: Result<Json, PyException>)
    ensures arg.ListArgument? ==> r == Failure(TypeError)
    ensures arg.StrArgument? ==>
              && (decode(arg.text).Success? ==> r == Success(decode(arg.text).value))
              && (decode(arg.text).Failure? ==> r == Failure(JsonDecodeError))
  {
    match arg
    case ListArgument(_) => Failure(TypeError)
    case StrArgument(text) =>
      match decode(text)
      case Failure(_) => Failure(JsonDecodeError)
      case Success(v) => Success(v)
  }

  /** What the function as written does: return True or False, or let an exception escape. */
  datatype PyOutcome = ReturnsTrue | ReturnsFalse | Raises(exception: PyException)

  /**
   * `validate_quiz_format` as written. A failed clean raises ValueError,
   * which is caught and gives False (the `is None` test never fires, since
   * `clean_quiz_data` returns a list or raises). A successful clean hands
   * its list to `json.loads`; whatever that gives, an uncaught exception
   * escapes, a non-dict value fails on `.items()`, and otherwise the
   * per-item check decides.
   */
  function ValidateAsWritten(input: QuizInput, decode: Decoder): (r: PyOutcome)
    ensures Clean(input, decode).Failure? ==> r == ReturnsFalse
    ensures Clean(input, decode).Success? ==> r == Raises(TypeError)
  {
    match Clean(input, decode)
    case Failure(_) => ReturnsFalse
    case Success(records) =>
      match Loads(ListArgument(records), decode)
      case Failure(e) => if Caught(e) then ReturnsFalse else Raises(e)
      case Success(JObject(items)) => if CheckItems(items).Accepted? then ReturnsTrue else ReturnsFalse
      case Success(_) => Raises(AttributeError)
  }

  /**
   * As written, the function never returns True, and fails loudly on every
   * quiz the intended check accepts: `Loads` refuses the list that a
   * successful clean returns, and TypeError is not among the caught
   * exceptions.
   */
  lemma AsWrittenNeverAccepts(input: QuizInput, decode: Decoder)
    ensures ValidateAsWritten(input, decode) != ReturnsTrue
    ensures FormatValid(input, decode) ==> ValidateAsWritten(input, decode) == Raises(TypeError)
  {
  }
}

=== FILE: results.dfy ===
/** Failure-carrying results: the model's stand-in for Python exceptions and `None` returns. */
module Results {

  datatype Option<+T> = None | Some(value: T)

  datatype Result<+R, +E> = Success(value: R) | Failure(error: E)

  /**
   * Apply `f` to every item in order, stopping at the first failure: either
   * one result per item, in order, or the error of the first item that
   * fails, never a partial list. This is the shape of a Python loop that
   * appends to a list and lets any exception abort the whole call.
   */
  function MapAll<T, U, E>(items: seq<T>, f: T -> Result<U, E>): (r: Result<seq<U>, E>)
    ensures r.Success? <==> forall i :: 0 <= i < |items| ==> f(items[i]).Success?
    ensures r.Success? ==>
              && |r.value| == |items|
              && forall i :: 0 <= i < |items| ==> f(items[i]) == Success(r.value[i])
    ensures r.Failure? ==>
              exists j :: 0 <= j < |items|
                && f(items[j]) == Failure(r.error)
                && forall i :: 0 <= i < j ==> f(items[i]).Success?
    decreases |items|
  {
    if items == [] then Success([])
    else
      var init := items[..|items| - 1];
      assert forall i :: 0 <= i < |init| ==> init[i] == items[i];
      match MapAll(init, f)
      case Failure(e) => Failure(e)
      case Success(done) =>
        match f(items[|items| - 1])
        case Failure(e) => Failure(e)
        case Success(u) => Success(done + [u])
  }

  /** One more successful item extends the result of a prefix by that item's result. */
  lemma MapAllStep<T, U, E>(items: seq<T>, i: nat, f: T -> Result<U, E>, done: seq<U>)
    requires i < |items| && MapAll(items[..i], f) == Success(done) && f(items[i]).Success?
    ensures MapAll(items[..i + 1], f) == Success(done + [f(items[i]).value])
  {
    assert items[..i + 1][..i] == items[..i];
  }

  /** The first failing item decides the error of the whole call. */
  lemma MapAllStopsAt<T, U, E>(items: seq<T>, i: nat, f: T -> Result<U, E>)
    requires i < |items| && MapAll(items[..i], f).Success? && f(items[i]).Failure?
    ensures MapAll(items, f) == Failure(f(items[i]).error)
  {
    assert forall k :: 0 <= k < i ==> items[..i][k] == items[k];
    var r := MapAll(items, f);
    var j :| 0 <= j < |items| && f(items[j]) == Failure(r.error)
             && forall k :: 0 <= k < j ==> f(items[k]).Success?;
    assert j == i;
  }
}
